=== FILE: README.md ===
# SimpleVector in Dafny

A model of `SimpleVector<Type>`, a contiguous growable array with C++ semantics, and of
`ArrayPtr<Type>`, the single-owner heap-block handle the vector is built on. The model
states, and the verifier proves, what each operation does to the vector's elements, size and
capacity. It covers the growth policy, the out-of-range errors and the ownership discipline of
the handle. Where the code departs from its evident intent, the model records the code as
written and then a corrected version.

Files:

- `outcomes.dfy` (module `Outcomes`): `Option`, `Result` and `Error`. `OutOfRange` stands for
  the `std::out_of_range` the code throws. `UndefinedBehavior` marks a path where the C++
  program has undefined behaviour.
- `buffer_moves.dfy` (module `BufferMoves`): the bulk moves on a buffer (fill, move a prefix
  into a new block, shift right with `move_backward`, shift left with `move`). Each has a
  slot-by-slot functional meaning and a loop over an array proved to compute it.
- `simple_vector.dfy` (module `SimpleVector`): the vector as a value
  `Vec(buffer, size, capacity)` with the invariant `size <= capacity <= |buffer|`. The
  elements are `buffer[..size]`. A null `ArrayPtr` is the empty buffer. The module holds every
  constructor and member operation.
- `comparison.dfy` (module `Comparison`): `==`, `!=`, `<`, `<=`, `>`, `>=`. The ordering is
  instantiated with `int` elements.
- `vector_properties.dfy` (module `VectorProperties`): properties that relate several
  operations. It also holds the lemmas that exhibit each departure of the code from its
  intent.
- `array_ptr.dfy` (module `ArrayPtrModel`): `ArrayPtr` as ownership of heap addresses.
  `Owned(hs)` is the multiset of addresses held by the live handles `hs`. Exclusive ownership
  means no address appears twice. Each operation states how it changes `Owned`.

Modelling choices:

- `blank` stands for the contents of every slot of a freshly allocated `new Type[n]`, and
  `dflt` for the value-initialised `Type{}` that `Resize` stores. For a class type with a
  user-provided default constructor the two coincide. `new Type[n]` default-initialises, so
  for a scalar type, or a class type without a user-provided default constructor (an
  aggregate such as `struct P { int x; }`), the fresh slots hold indeterminate values, and
  `blank` is an arbitrary value that may differ from `dflt`.
- A moved-from slot keeps its value, as it does for trivially copyable types.
- Iterators are indices. A position argument is an `int`, so positions before `begin()` can
  be expressed.
- Two operands being the same object (`this == &rhs`) is passed in as a flag, `same`.

## Model

| member | source | states |
|---|---|---|
| BufferMoves.Allocate | simple-vector/array_ptr.h:13-20 | a fresh block of n slots has length n and every slot holds the fresh-block contents blank |
| BufferMoves.Fill | simple-vector/simple_vector.h:40-46 | the fill loop sets exactly the slots in [from, to) to the value and leaves every other slot as it was |
| BufferMoves.MovePrefix | simple-vector/simple_vector.h:248-255 | moving the live range into the new block puts source slot i at slot i for i < n and keeps the rest of the new block |
| BufferMoves.MoveBackward | simple-vector/simple_vector.h:212-228 | the right-to-left shift moves every element of [first, last) exactly one slot toward the tail without corrupting any unmoved element |
| BufferMoves.MoveForward | simple-vector/simple_vector.h:230-240 | the left-to-right shift moves every element of [first, last) exactly one slot toward the head |
| SimpleVector.Grow | simple-vector/simple_vector.h:212-218 | a full vector grows to capacity 1 from 0 and otherwise to twice its capacity, always strictly larger |
| SimpleVector.Empty | simple-vector/simple_vector.h:34 | the default vector has no elements, capacity 0 and no allocation |
| SimpleVector.Sized | simple-vector/simple_vector.h:36-54 | the sized constructor yields size == capacity == n with every element equal to the given value |
| SimpleVector.FromList | simple-vector/simple_vector.h:56-62 | the list constructor holds exactly the listed values, with capacity equal to their count |
| SimpleVector.WithCapacity | simple-vector/simple_vector.h:64-66 | the capacity-hint constructor has no elements and capacity n |
| SimpleVector.CopyAsWritten | simple-vector/simple_vector.h:68-74 | the copy has the source's elements and capacity but an allocation only as long as the source's size |
| SimpleVector.Copy | simple-vector/simple_vector.h:68-74 | the corrected copy keeps the invariant and holds exactly the source's elements |
| SimpleVector.CopyAssign | simple-vector/simple_vector.h:82-88 | after copy assignment the target holds exactly rhs's elements, also for self-assignment |
| SimpleVector.MoveConstruct | simple-vector/simple_vector.h:76-80 | the new vector takes over the buffer, size, capacity and elements; the source is left with size 0, capacity 0 and no buffer |
| SimpleVector.MoveAssign | simple-vector/simple_vector.h:90-97 | the target takes rhs's buffer, size, capacity and elements, self-assignment changes neither; rhs is otherwise left with size and capacity 0, holding the target's former buffer |
| SimpleVector.Swap | simple-vector/simple_vector.h:242-246 | the two vectors exchange buffer, size, capacity and elements |
| SimpleVector.IsEmpty | simple-vector/simple_vector.h:107-109 | true exactly when the vector has no elements |
| SimpleVector.Index | simple-vector/simple_vector.h:111-119 | unchecked access returns element i when the caller guarantees i < size |
| SimpleVector.At | simple-vector/simple_vector.h:121-137 | At(i) returns element i exactly when i < size and fails with OutOfRange otherwise |
| SimpleVector.SetIndex | simple-vector/simple_vector.h:111-114 | writing through operator[] at i < size replaces exactly element i and keeps size, capacity and the invariant |
| SimpleVector.SetAt | simple-vector/simple_vector.h:121-128 | writing through At(i) replaces exactly element i when i < size and otherwise fails with OutOfRange, changing nothing |
| SimpleVector.Clear | simple-vector/simple_vector.h:139-141 | Clear leaves no elements and keeps capacity and buffer |
| SimpleVector.Reserve | simple-vector/simple_vector.h:248-255 | Reserve(n) keeps size and elements, sets capacity to exactly n when n exceeds it, the spare slots then holding the fresh block's contents, and otherwise changes nothing |
| SimpleVector.ResizeAsWritten | simple-vector/simple_vector.h:143-155 | Resize as written has undefined behaviour exactly when it grows within capacity and size + n passes the allocation; otherwise it gets the intended capacity, agrees with the intended elements when n fits the capacity, and past the capacity appends the fresh block's contents instead of Type{} |
| SimpleVector.Resize | simple-vector/simple_vector.h:143-155 | Resize(n) truncates to the first n elements or appends Type{} up to n, whatever the fresh block held, reallocating to max(2*capacity, n) only when n exceeds capacity |
| SimpleVector.PopBack | simple-vector/simple_vector.h:157-160 | PopBack removes exactly the last element and keeps capacity |
| SimpleVector.GrownForInsert | simple-vector/simple_vector.h:212-218 | before inserting, a full vector is grown by the doubling rule with elements preserved, leaving a free slot |
| SimpleVector.Insert | simple-vector/simple_vector.h:212-228 | Insert at k in [0, size] yields old[..k] + [value] + old[k..], size + 1 and position k, growing only when full; any other position fails with OutOfRange |
| SimpleVector.InsertCopyAsWritten | simple-vector/simple_vector.h:194-210 | the const-reference Insert shifts and grows like Insert but slot k keeps its previous content instead of the value |
| SimpleVector.PushBack | simple-vector/simple_vector.h:166-168 | PushBack appends the value: size grows by one and all prior elements keep their indices |
| SimpleVector.PushBackCopyAsWritten | simple-vector/simple_vector.h:162-164 | the const-reference PushBack keeps the prior elements but the new last element is the stale slot's content |
| SimpleVector.EraseAsWritten | simple-vector/simple_vector.h:230-240 | Erase as written agrees with Erase inside [begin, end) but reaches undefined behaviour at end() instead of throwing |
| SimpleVector.Erase | simple-vector/simple_vector.h:230-240 | Erase at k < size yields old[..k] + old[k+1..], size - 1 and position k; any other position fails with OutOfRange |
| Comparison.ElementsEqual | simple-vector/simple_vector.h:264-266 | the element-by-element walk is true exactly when the first range equals the matching prefix of the second |
| Comparison.Equal | simple-vector/simple_vector.h:264-266 | == holds iff the sizes match and the elements are pairwise equal |
| Comparison.NotEqual | simple-vector/simple_vector.h:268-271 | != holds iff the sizes differ or some index holds different elements |
| Comparison.LexLessMeaning | simple-vector/simple_vector.h:273-279 | the lexicographical_compare walk holds iff, at the first difference, the left side has ended or has the smaller element |
| Comparison.LexLessTrichotomy | simple-vector/simple_vector.h:273-279 | exactly one of a < b, a == b, b < a holds |
| Comparison.LexLessTransitive | simple-vector/simple_vector.h:273-279 | the lexicographic order is transitive |
| Comparison.StrictPrefixFirst | simple-vector/simple_vector.h:273-279 | a strict prefix orders before the longer sequence and not after it |
| Comparison.Less | simple-vector/simple_vector.h:273-279 | < on vectors is the lexicographic order of their elements |
| Comparison.LessEq | simple-vector/simple_vector.h:281-284 | <= holds iff < or == holds |
| Comparison.Greater | simple-vector/simple_vector.h:286-289 | > holds iff <= does not |
| Comparison.GreaterEq | simple-vector/simple_vector.h:291-294 | >= holds iff > or == holds |
| Comparison.LessIsStrictOrder | simple-vector/simple_vector.h:273-294 | < on vectors is irreflexive, transitive and total up to == |
| VectorProperties.InsertEraseRoundTrip | simple-vector/simple_vector.h:212-240 | erasing at the position Insert returned restores the original elements |
| VectorProperties.InsertThenAt | simple-vector/simple_vector.h:212-228 | At at the insertion position returns the inserted value |
| VectorProperties.PushBackIsInsertAtEnd | simple-vector/simple_vector.h:166-168 | PushBack equals Insert at end(), which always succeeds |
| VectorProperties.ClearIdempotent | simple-vector/simple_vector.h:139-141 | clearing twice equals clearing once |
| VectorProperties.ReserveIdempotent | simple-vector/simple_vector.h:248-255 | after Reserve, reserving no more than the capacity is a no-op |
| VectorProperties.SwapInvolution | simple-vector/simple_vector.h:242-246 | swapping twice restores both vectors |
| VectorProperties.OperationsKeepTight | simple-vector/simple_vector.h:139-255 | every mutating operation of the corrected model, and the as-written Insert(const Type&) and defined Resize, keep the allocation exactly capacity slots long; the source of a move assignment does not |
| VectorProperties.AppendAll | simple-vector/simple_vector.h:166-168 | repeated PushBack appends the values in order |
| VectorProperties.AppendKeepsDoubled | simple-vector/simple_vector.h:212-218 | appending keeps capacity a power of two that is less than twice the size, tied to the reallocation count |
| VectorProperties.AppendGrowth | simple-vector/simple_vector.h:212-218 | appending n > 0 values to an empty vector gives capacity in [n, 2n) equal to 2^(r-1) after r reallocations |
| VectorProperties.InsertCopyDropsValue | simple-vector/simple_vector.h:194-210 | on a full vector the const-reference PushBack leaves the fresh slot's content, not the given value, where PushBack stores the given value |
| VectorProperties.InsertCopyDropsValueExample | simple-vector/simple_vector.h:194-210 | inserting 5 into an empty vector whose fresh slot holds 0 gives {0} as written and {5} as intended |
| VectorProperties.EraseAcceptsEnd | simple-vector/simple_vector.h:230-233 | Erase as written lets end() through its guard into undefined behaviour, where the intended Erase throws OutOfRange |
| VectorProperties.ResizeOverruns | simple-vector/simple_vector.h:149-151 | whenever size + n passes the allocation, Resize as written is undefined while the intended Resize appends Type{} values |
| VectorProperties.ResizeOverrunExample | simple-vector/simple_vector.h:149-151 | a vector {7} with capacity 2 resized to 2 overruns as written and becomes {7, 0} as intended |
| VectorProperties.ResizeSkipsDefaultFill | simple-vector/simple_vector.h:145-147 | growing past the capacity, Resize as written leaves the fresh block's contents in the new slots while the intended Resize sets them to Type{}, so the results differ whenever the two values differ |
| VectorProperties.ResizeSkipsDefaultFillExample | simple-vector/simple_vector.h:145-147 | resizing an empty vector to 1 when the fresh slot holds 9 gives {9} as written and {0} as intended |
| VectorProperties.CopyBreaksInvariant | simple-vector/simple_vector.h:68-74 | copying a vector with spare capacity breaks the invariant as written and keeps it as corrected |
| VectorProperties.CopyBreaksInvariantExample | simple-vector/simple_vector.h:68-74 | the copy of an empty vector with capacity 1 is invalid as written |
| ArrayPtrModel.New | simple-vector/array_ptr.h:13-20 | ArrayPtr(0) holds null; ArrayPtr(n) with n > 0 holds the fresh block, and exclusivity is kept |
| ArrayPtrModel.Adopt | simple-vector/array_ptr.h:22-24 | adopting a raw pointer adds exactly that block to the owned blocks |
| ArrayPtrModel.Release | simple-vector/array_ptr.h:45-49 | Release returns the held block, leaves the handle null and keeps the other handles; the owned blocks lose exactly the released one |
| ArrayPtrModel.MoveConstruct | simple-vector/array_ptr.h:30-32 | move construction transfers the block to the new handle, leaves the source null and neither gains nor loses a block |
| ArrayPtrModel.MoveAssignAsWritten | simple-vector/array_ptr.h:34-39 | move assignment as written transfers rhs's block and drops the target's former block from the owned blocks |
| ArrayPtrModel.MoveAssign | simple-vector/array_ptr.h:34-39 | the corrected move assignment transfers rhs's block and frees the target's former block, so every block stays owned or freed |
| ArrayPtrModel.Swap | simple-vector/array_ptr.h:72-74 | swap exchanges the two held blocks and changes nothing else |
| ArrayPtrModel.ToBool | simple-vector/array_ptr.h:59-66 | operator bool is true iff the handle holds a block |
| ArrayPtrModel.Get | simple-vector/array_ptr.h:68-70 | Get returns exactly the held block or null |
| ArrayPtrModel.MoveAssignLeaks | simple-vector/array_ptr.h:34-39 | as written, after moving between distinct handles no handle owns the target's former block, which is leaked |

## Left out

- Memory management: `new[]`, `delete[]`, the `ArrayPtr` destructor and allocation failure (`std::bad_alloc`). Dafny has no manual memory. The vector model holds its buffer's contents, and `ArrayPtrModel` tracks ownership of addresses.
- The `ArrayPtr` index operator. The handle model carries addresses, not contents; the vector reads its buffer contents directly.
- `ReserveProxyObj` and the free `Reserve(size_t)` helper. They only carry a number into `SimpleVector.WithCapacity`.
- The `assert`s in `operator[]` and `PopBack`. They are the preconditions of `SimpleVector.Index` and `SimpleVector.PopBack`.
- `GetSize`, `GetCapacity`, `begin`, `end`, `cbegin` and `cend`. They are the fields `size` and `capacity` and the indices `0` and `size`.
- Generic element types for the ordering operators. The ordering is proved for `int` elements.
- SimpleVector.Grow: `capacity_ * 2` is computed in `size_t` and would wrap for capacities of 2^63 or more. Model capacities are unbounded.
- SimpleVector.ResizeAsWritten: `size_ + new_size` and `2 * capacity_` are also `size_t` sums, whose wrap-around is not modelled. An indeterminate scalar is modelled as one arbitrary value `blank` shared by all fresh slots, not as a different unknown value per slot, and reading it is not flagged as undefined behaviour.
- SimpleVector.InsertCopyAsWritten: line 202 does not compile once instantiated, because `cend()` is a `const Type*` while `position` is a `Type*`. The model gives the overload the behaviour lines 201-204 would have with `end()` there.
- VectorProperties.InsertCopyDropsValueExample: the `0` it exhibits is one choice of the fresh slot's content. For an `int` vector, `new int[1]` leaves that slot indeterminate, so the source promises no particular value there; the point is only that it is not 5.
- References returned by the non-const `operator[]` and `At`: a write through them is modelled as its own operation, by `SimpleVector.SetIndex` and `SimpleVector.SetAt`.
- SimpleVector.InsertCopyAsWritten: the moved-from slot keeps its old value here. For class types its content after the move is unspecified.
- SimpleVector.CopyAssign: it is built on the corrected `SimpleVector.Copy`. As written, copy assignment goes through the copy constructor, so it inherits the copy-constructor finding below.
- SimpleVector.Valid: the invariant allows the allocation to be longer than `capacity`. Move assignment leaves `rhs` holding the target's former buffer with capacity 0. `VectorProperties.OperationsKeepTight` shows that the other operations of the corrected model keep the two equal, as do `Insert(pos, const Type&)` as written and `Resize` as written where it is defined. The copy constructor as written, and so copy assignment as written, records a capacity longer than its allocation and breaks even `Valid`.
- SimpleVector.Insert: the value is a separate argument, so a value that aliases the vector's own storage is not modelled. In C++ the rvalue reference is read after the shift and after any reallocation. `v.PushBack(std::move(v[0]))` on a full vector reads the freed block. `v.Insert(v.begin(), std::move(v[1]))` on `{a, b, c}` with spare capacity gives `{a, a, b, c}`, where the model gives `{b, a, b, c}`. The same holds for `SimpleVector.PushBack`.

## Findings

| source | as written | input that shows it | evidently intended | confidence | as-written member | corrected member |
|---|---|---|---|---|---|---|
| simple-vector/simple_vector.h:194-210 | `Insert(pos, const Type&)` shifts the elements and increments the size but never stores `value`, so `PushBack(const Type&)` loses its argument too. Line 202 passes `position` (a `Type*`) and `cend()` (a `const Type*`) to `std::move_backward`, whose two range arguments share one template parameter, so the overload does not compile once it is used. The model follows lines 201-204 with `end()` in place of `cend()`, as in line 220 | inserting 5 at position 0 of an empty vector leaves the freshly allocated slot's content where 5 belongs; that is `Type{}` for a class type with a user-provided default constructor and an indeterminate value for `int` | store `value` at the position, as the rvalue overload does | high, not executed | SimpleVector.InsertCopyAsWritten, VectorProperties.InsertCopyDropsValueExample | SimpleVector.Insert |
| simple-vector/simple_vector.h:145-147 | growing past the capacity only calls `Reserve(max(2 * capacity, new_size))` and sets the size; the `Type{}` fill at line 150 is on the other branch, so the new elements are whatever `new Type[n]` left in the fresh block | an empty `SimpleVector<int>` resized to 1: the element is an indeterminate `int` rather than 0 | set the new elements `[size, new_size)` to `Type{}` on both branches | high for scalar types and class types without a user-provided default constructor (the others get `Type{}` from `new Type[n]` anyway), not executed | SimpleVector.ResizeAsWritten, VectorProperties.ResizeSkipsDefaultFillExample | SimpleVector.Resize |
| simple-vector/simple_vector.h:230-240 | the guard of `Erase` accepts `pos == end()` and then moves the inverted range `[end()+1, end())` | `Erase(end())` on any vector, for example an empty one | reject `end()` with `out_of_range`, as the range `[begin, end)` requires | high, not executed | SimpleVector.EraseAsWritten, VectorProperties.EraseAcceptsEnd | SimpleVector.Erase |
| simple-vector/simple_vector.h:149-151 | growing within capacity fills `[begin()+size, end()+new_size)`, whose end is `size + new_size` | a vector `{7}` with capacity 2, resized to 2, writes slot 2 of a 2-slot block | fill `[size, new_size)` | high, not executed | SimpleVector.ResizeAsWritten, VectorProperties.ResizeOverrunExample | SimpleVector.Resize |
| simple-vector/simple_vector.h:68-74 | the copy constructor allocates `other.GetSize()` slots but records `other.GetCapacity()` | copying an empty vector built with capacity 1 gives capacity 1 over a null buffer; a following `PushBack` writes through it | record the allocated size as the capacity; copy assignment, which goes through this constructor, is affected too | high, not executed | SimpleVector.CopyAsWritten, VectorProperties.CopyBreaksInvariantExample | SimpleVector.Copy |
| simple-vector/array_ptr.h:34-39 | move assignment overwrites `raw_ptr_` without `delete[]` of the block it held | move-assigning one non-null handle into another non-null handle | free the former block (or swap it into `rhs`) before taking over | high, not executed | ArrayPtrModel.MoveAssignAsWritten, ArrayPtrModel.MoveAssignLeaks | ArrayPtrModel.MoveAssign |

=== FILE: array_ptr.dfy ===
/** `ArrayPtr<Type>`: a handle that exclusively owns one heap block, or holds null.

    Only ownership is modelled. A block is named by its address; a set of live handles is a
    sequence `hs` indexed by handle, and `Owned(hs)` is the multiset of addresses the handles
    hold. Exclusive ownership means no address occurs twice in it. An operation that drops an
    address from `Owned` without handing it to its caller or freeing it leaks that block. */
module ArrayPtrModel {
  import opened Outcomes

  type Addr = nat

  datatype ArrayPtr = ArrayPtr(raw: Option<Addr>)

  /** The addresses one handle holds: none for null, one otherwise. */
  function Held(p: Option<Addr>): multiset<Addr>
  {
    if p.Some? then multiset{p.value} else multiset{}
  }

  /** All addresses held by the handles `hs`, with multiplicity. */
  function Owned(hs: seq<ArrayPtr>): multiset<Addr>
    decreases |hs|
  {
    if |hs| == 0 then multiset{} else Owned(hs[..|hs| - 1]) + Held(hs[|hs| - 1].raw)
  }

  /** No block is owned by two handles. */
  predicate Exclusive(hs: seq<ArrayPtr>)
  {
    forall a :: a in Owned(hs) ==> Owned(hs)[a] == 1
  }

  /** What one handle holds is part of what all of them hold. */
  lemma {:induction false} HeldInOwned(hs: seq<ArrayPtr>, i: nat)
    requires i < |hs|
    ensures Held(hs[i].raw) <= Owned(hs)
    decreases |hs|
  {
    if i < |hs| - 1 {
      HeldInOwned(hs[..|hs| - 1], i);
    }
  }

  /** Replacing one handle replaces its contribution to `Owned` and nothing else. */
  lemma {:induction false} OwnedUpdate(hs: seq<ArrayPtr>, i: nat, p: ArrayPtr)
    requires i < |hs|
    ensures Owned(hs[i := p]) + Held(hs[i].raw) == Owned(hs) + Held(p.raw)
    decreases |hs|
  {
    var n := |hs| - 1;
    var hs' := hs[i := p];
    assert Owned(hs') == Owned(hs'[..n]) + Held(hs'[n].raw);
    assert Owned(hs) == Owned(hs[..n]) + Held(hs[n].raw);
    if i < n {
      assert hs'[..n] == hs[..n][i := p];
      assert hs'[n] == hs[n];
      OwnedUpdate(hs[..n], i, p);
      Shuffle(Owned(hs'[..n]), Owned(hs[..n]), Held(hs[n].raw), Held(hs[i].raw), Held(p.raw));
    } else {
      assert hs'[..n] == hs[..n];
    }
  }

  /** Adding the same `b` to both sides of a multiset equation keeps it. */
  lemma Shuffle(a': multiset<Addr>, a: multiset<Addr>, b: multiset<Addr>, x: multiset<Addr>, y: multiset<Addr>)
    requires a' + x == a + y
    ensures a' + b + x == a + b + y
  {
    forall e
      ensures (a' + b + x)[e] == (a + b + y)[e]
    {
      assert (a' + x)[e] == (a + y)[e];
    }
  }

  lemma Cancel(a: multiset<Addr>, b: multiset<Addr>, x: multiset<Addr>)
    requires a + x == b + x
    ensures a == b
  {
    forall e
      ensures a[e] == b[e]
    {
      assert (a + x)[e] == a[e] + x[e] && (b + x)[e] == b[e] + x[e];
    }
  }

  /** Handles that own part of what exclusive handles own are exclusive too. */
  lemma ExclusivePart(hs: seq<ArrayPtr>, hs': seq<ArrayPtr>, rest: multiset<Addr>)
    requires Owned(hs') + rest == Owned(hs) && Exclusive(hs)
    ensures Exclusive(hs')
  {
    forall a | a in Owned(hs')
      ensures Owned(hs')[a] == 1
    {
      assert (Owned(hs') + rest)[a] == Owned(hs')[a] + rest[a];
    }
  }

  lemma OwnedAppend(hs: seq<ArrayPtr>, p: ArrayPtr)
    ensures Owned(hs + [p]) == Owned(hs) + Held(p.raw)
  {
    assert (hs + [p])[..|hs|] == hs;
  }

  /** `explicit ArrayPtr(size)` as a new handle: a block at the allocator's address `addr`
      when `size > 0`, null otherwise. The allocator never hands out a block that a live handle
      still owns. */
  function New(hs: seq<ArrayPtr>, size: nat, addr: Addr): (r: seq<ArrayPtr>)
    requires addr !in Owned(hs)
    ensures |r| == |hs| + 1 && r[..|hs|] == hs
    ensures ToBool(r[|hs|]) <==> size > 0
    ensures size > 0 ==> Get(r[|hs|]) == Some(addr)
    ensures Exclusive(hs) ==> Exclusive(r)
  {
    var p := ArrayPtr(if size > 0 then Some(addr) else None);
    OwnedAppend(hs, p);
    hs + [p]
  }

  /** `explicit ArrayPtr(Type*)` as a new handle: it adopts `raw`, which no live handle may
      already own. */
  function Adopt(hs: seq<ArrayPtr>, raw: Option<Addr>): (r: seq<ArrayPtr>)
    requires raw.Some? ==> raw.value !in Owned(hs)
    ensures |r| == |hs| + 1 && r[..|hs|] == hs && Get(r[|hs|]) == raw
    ensures Owned(r) == Owned(hs) + Held(raw)
    ensures Exclusive(hs) ==> Exclusive(r)
  {
    OwnedAppend(hs, ArrayPtr(raw));
    hs + [ArrayPtr(raw)]
  }

  /** `Release` on handle `i`: the held address goes to the caller and the handle becomes null.
      Result is (released address, handles afterwards). */
  function Release(hs: seq<ArrayPtr>, i: nat): (r: (Option<Addr>, seq<ArrayPtr>))
    requires i < |hs|
    ensures r.0 == hs[i].raw
    ensures |r.1| == |hs| && !ToBool(r.1[i])
    ensures forall k :: 0 <= k < |hs| && k != i ==> r.1[k] == hs[k]
    ensures Owned(r.1) + Held(r.0) == Owned(hs)
  {
    var hs' := hs[i := ArrayPtr(None)];
    OwnedUpdate(hs, i, ArrayPtr(None));
    (hs[i].raw, hs')
  }

  /** Move construction from handle `i`: a new handle takes over its address and handle `i`
      becomes null. No block is gained or lost. */
  function MoveConstruct(hs: seq<ArrayPtr>, i: nat): (r: seq<ArrayPtr>)
    requires i < |hs|
    ensures |r| == |hs| + 1 && Get(r[|hs|]) == Get(hs[i]) && !ToBool(r[i])
    ensures forall k :: 0 <= k < |hs| && k != i ==> r[k] == hs[k]
    ensures Owned(r) == Owned(hs)
    ensures Exclusive(hs) ==> Exclusive(r)
  {
    var (raw, hs') := Release(hs, i);
    OwnedAppend(hs', ArrayPtr(raw));
    hs' + [ArrayPtr(raw)]
  }

  /** Move assignment `hs[i] = std::move(hs[j])` as written: the target's pointer is
      overwritten by `rhs.Release()` without freeing the block it held. */
  function MoveAssignAsWritten(hs: seq<ArrayPtr>, i: nat, j: nat): (r: seq<ArrayPtr>)
    requires i < |hs| && j < |hs|
    ensures |r| == |hs|
    ensures i != j ==> Get(r[i]) == Get(hs[j]) && !ToBool(r[j])
    ensures i != j ==> Owned(r) + Held(hs[i].raw) == Owned(hs)
    ensures forall k :: 0 <= k < |hs| && k != i && k != j ==> r[k] == hs[k]
    ensures i == j ==> r == hs
  {
    if i == j then hs
    else
      var (raw, hs') := Release(hs, j);
      OwnedUpdate(hs', i, ArrayPtr(raw));
      hs'[i := ArrayPtr(raw)]
  }

  /** Move assignment as intended: the target's former block is freed (its address returned
      as `freed`) before it takes over `rhs`'s block. Result is (handles afterwards, freed). */
  function MoveAssign(hs: seq<ArrayPtr>, i: nat, j: nat): (r: (seq<ArrayPtr>, Option<Addr>))
    requires i < |hs| && j < |hs|
    ensures |r.0| == |hs|
    ensures i != j ==> Get(r.0[i]) == Get(hs[j]) && !ToBool(r.0[j]) && r.1 == Get(hs[i])
    ensures forall k :: 0 <= k < |hs| && k != i && k != j ==> r.0[k] == hs[k]
    ensures Owned(r.0) + Held(r.1) == Owned(hs)
    ensures Exclusive(hs) ==> Exclusive(r.0)
  {
    if i == j then (hs, None)
    else
      var (raw, hs') := Release(hs, j);
      OwnedUpdate(hs', i, ArrayPtr(raw));
      var r := (hs'[i := ArrayPtr(raw)], hs[i].raw);
      assert Owned(r.0) + Held(r.1) == Owned(hs);
      if Exclusive(hs) then ExclusivePart(hs, r.0, Held(r.1)); r else r
  }

  /** `swap` of handles `i` and `j`: the two addresses trade places, nothing else changes. */
  function Swap(hs: seq<ArrayPtr>, i: nat, j: nat): (r: seq<ArrayPtr>)
    requires i < |hs| && j < |hs|
    ensures |r| == |hs| && r[i] == hs[j] && r[j] == hs[i]
    ensures forall k :: 0 <= k < |hs| && k != i && k != j ==> r[k] == hs[k]
    ensures Owned(r) == Owned(hs)
    ensures Exclusive(hs) ==> Exclusive(r)
  {
    var hs1 := hs[i := hs[j]];
    OwnedUpdate(hs, i, hs[j]);
    assert hs1[j] == hs[j];
    OwnedUpdate(hs1, j, hs[i]);
    var r := hs1[j := hs[i]];
    assert Owned(r) + Held(hs[j].raw) == Owned(hs) + Held(hs[j].raw);
    Cancel(Owned(r), Owned(hs), Held(hs[j].raw));
    r
  }

  /** `explicit operator bool`: whether the handle holds a block. */
  function ToBool(p: ArrayPtr): (r: bool)
    ensures r <==> Held(p.raw) != multiset{}
  {
    p.raw.Some?
  }

  /** `Get`: the held address, or null. */
  function Get(p: ArrayPtr): (r: Option<Addr>)
    ensures Held(r) == Held(p.raw)
  {
    p.raw
  }

  /** As written, move assignment between two distinct handles leaves the target's former
      block owned by no handle, without freeing it: the block leaks. The intended version
      returns it as freed. */
  lemma MoveAssignLeaks(hs: seq<ArrayPtr>, i: nat, j: nat)
    requires i < |hs| && j < |hs| && i != j && Exclusive(hs) && hs[i].raw.Some?
    ensures hs[i].raw.value !in Owned(MoveAssignAsWritten(hs, i, j))
    ensures MoveAssign(hs, i, j).1 == hs[i].raw
  {
    var a := hs[i].raw.value;
    var r := MoveAssignAsWritten(hs, i, j);
    HeldInOwned(hs, i);
    assert (Owned(r) + Held(hs[i].raw))[a] == Owned(r)[a] + 1;
  }
}

=== FILE: buffer_moves.dfy ===
/** The bulk element moves the vector performs on its buffer: filling a range
    (`std::fill` / `std::generate`), moving a prefix into a new block (`std::move` into
    `temp.Get()`), and shifting a range one slot right (`std::move_backward`) or one slot
    left (`std::move`). Each move has a functional meaning, stated slot by slot, and a loop
    over an array that is proved to compute exactly that meaning.

    A moved-from slot keeps its value in this model (as it does for trivially copyable
    element types). */
module BufferMoves {

  /** Contents of a freshly allocated block of `n` slots (`new Type[n]`): every slot holds
      `blank`. For a class type with a user-provided default constructor that is the
      default-constructed value; for a scalar type, or a class type without such a
      constructor, the slots are (partly) indeterminate, and `blank` stands for whatever they
      happen to hold. */
  function Allocate<T>(n: nat, blank: T): (r: seq<T>)
    ensures |r| == n
    ensures forall i :: 0 <= i < n ==> r[i] == blank
  {
    seq(n, _ => blank)
  }

  /** `buf` with the slots `[from, to)` overwritten by `x`. */
  function Filled<T>(buf: seq<T>, from: nat, to: nat, x: T): (r: seq<T>)
    requires from <= to <= |buf|
    ensures |r| == |buf|
    ensures forall i :: from <= i < to ==> r[i] == x
    ensures forall i :: 0 <= i < |buf| && !(from <= i < to) ==> r[i] == buf[i]
  {
    buf[..from] + Allocate(to - from, x) + buf[to..]
  }

  /** `dst` with its first `n` slots replaced by the first `n` slots of `src`. */
  function CopiedPrefix<T>(src: seq<T>, n: nat, dst: seq<T>): (r: seq<T>)
    requires n <= |src| && n <= |dst|
    ensures |r| == |dst|
    ensures forall i :: 0 <= i < n ==> r[i] == src[i]
    ensures forall i :: n <= i < |dst| ==> r[i] == dst[i]
  {
    src[..n] + dst[n..]
  }

  /** `buf` after the range `[first, last)` moved one slot towards the tail; slot `first`
      keeps its (moved-from) value. */
  function ShiftedRight<T>(buf: seq<T>, first: nat, last: nat): (r: seq<T>)
    requires first <= last < |buf|
    ensures |r| == |buf|
    ensures forall i :: first < i <= last ==> r[i] == buf[i - 1]
    ensures forall i :: 0 <= i < |buf| && !(first < i <= last) ==> r[i] == buf[i]
  {
    buf[..first + 1] + buf[first..last] + buf[last + 1..]
  }

  /** `buf` after the range `[first, last)` moved one slot towards the head; slot
      `last - 1` keeps its (moved-from) value. */
  function ShiftedLeft<T>(buf: seq<T>, first: nat, last: nat): (r: seq<T>)
    requires 0 < first <= last <= |buf|
    ensures |r| == |buf|
    ensures forall i :: first - 1 <= i < last - 1 ==> r[i] == buf[i + 1]
    ensures forall i :: 0 <= i < |buf| && !(first - 1 <= i < last - 1) ==> r[i] == buf[i]
  {
    buf[..first - 1] + buf[first..last] + buf[last - 1..]
  }

  /** `std::fill(first, last, x)` as a left-to-right loop. */
  method Fill<T>(buf: seq<T>, from: nat, to: nat, x: T) returns (r: seq<T>)
    requires from <= to <= |buf|
    ensures r == Filled(buf, from, to, x)
  {
    var a := new T[|buf|](i requires 0 <= i < |buf| => buf[i]);
    var i := from;
    while i < to
      invariant from <= i <= to
      invariant a.Length == |buf|
      invariant forall j :: from <= j < i ==> a[j] == x
      invariant forall j :: 0 <= j < a.Length && !(from <= j < i) ==> a[j] == buf[j]
    {
      a[i] := x;
      i := i + 1;
    }
    r := a[..];
    assert forall j :: 0 <= j < |r| ==> r[j] == Filled(buf, from, to, x)[j];
  }

  /** `std::move(src, src + n, dst)`: copies the first `n` slots left to right. */
  method MovePrefix<T>(src: seq<T>, n: nat, dst: seq<T>) returns (r: seq<T>)
    requires n <= |src| && n <= |dst|
    ensures r == CopiedPrefix(src, n, dst)
  {
    var a := new T[|dst|](i requires 0 <= i < |dst| => dst[i]);
    var i := 0;
    while i < n
      invariant i <= n
      invariant a.Length == |dst|
      invariant forall j :: 0 <= j < i ==> a[j] == src[j]
      invariant forall j :: i <= j < a.Length ==> a[j] == dst[j]
    {
      a[i] := src[i];
      i := i + 1;
    }
    r := a[..];
    assert forall j :: 0 <= j < |r| ==> r[j] == CopiedPrefix(src, n, dst)[j];
  }

  /** `std::move_backward(first, last, last + 1)`: the rightmost element moves first, so
      no element is overwritten before it has been moved. */
  method MoveBackward<T>(buf: seq<T>, first: nat, last: nat) returns (r: seq<T>)
    requires first <= last < |buf|
    ensures r == ShiftedRight(buf, first, last)
  {
    var a := new T[|buf|](i requires 0 <= i < |buf| => buf[i]);
    var i := last;
    while i > first
      invariant first <= i <= last
      invariant a.Length == |buf|
      invariant forall j :: i < j <= last ==> a[j] == buf[j - 1]
      invariant forall j :: 0 <= j < a.Length && !(i < j <= last) ==> a[j] == buf[j]
    {
      a[i] := a[i - 1];
      i := i - 1;
    }
    r := a[..];
    assert forall j :: 0 <= j < |r| ==> r[j] == ShiftedRight(buf, first, last)[j];
  }

  /** `std::move(first, last, first - 1)`: the leftmost element moves first. */
  method MoveForward<T>(buf: seq<T>, first: nat, last: nat) returns (r: seq<T>)
    requires 0 < first <= last <= |buf|
    ensures r == ShiftedLeft(buf, first, last)
  {
    var a := new T[|buf|](i requires 0 <= i < |buf| => buf[i]);
    var i := first;
    while i < last
      invariant first <= i <= last
      invariant a.Length == |buf|
      invariant forall j :: first - 1 <= j < i - 1 ==> a[j] == buf[j + 1]
      invariant forall j :: 0 <= j < a.Length && !(first - 1 <= j < i - 1) ==> a[j] == buf[j]
    {
      a[i - 1] := a[i];
      i := i + 1;
    }
    r := a[..];
    assert forall j :: 0 <= j < |r| ==> r[j] == ShiftedLeft(buf, first, last)[j];
  }
}

=== FILE: comparison.dfy ===
/** The free comparison operators of `SimpleVector`. Equality works for any element type
    with equality; the ordering operators are instantiated with `int` elements and their
    built-in `<`. */
module Comparison {
  import opened SimpleVector

  /** `std::equal(first1, last1, first2)`: `a` agrees with the first `|a|` elements of `b`. */
  function ElementsEqual<T(==)>(a: seq<T>, b: seq<T>): (r: bool)
    requires |a| <= |b|
    ensures r <==> a == b[..|a|]
  {
    if |a| == 0 then true
    else
      assert b[1..][..|a| - 1] == b[..|a|][1..];
      a[0] == b[0] && ElementsEqual(a[1..], b[1..])
  }

  /** `operator==`: equal sizes, then element by element. */
  function Equal<T(==)>(lhs: Vec<T>, rhs: Vec<T>): (r: bool)
    requires Valid(lhs) && Valid(rhs)
    ensures r <==> Elements(lhs) == Elements(rhs)
  {
    lhs.size == rhs.size && ElementsEqual(Elements(lhs), Elements(rhs))
  }

  /** `operator!=`. */
  function NotEqual<T(==)>(lhs: Vec<T>, rhs: Vec<T>): (r: bool)
    requires Valid(lhs) && Valid(rhs)
    ensures r <==> (lhs.size != rhs.size || exists i :: 0 <= i < lhs.size && Elements(lhs)[i] != Elements(rhs)[i])
  {
    !Equal(lhs, rhs)
  }

  /** `std::lexicographical_compare` on two ranges, step by step as the library algorithm
      walks them. */
  function LexLess(a: seq<int>, b: seq<int>): (r: bool)
  {
    if |a| == 0 then |b| > 0
    else if |b| == 0 then false
    else if a[0] < b[0] then true
    else if b[0] < a[0] then false
    else LexLess(a[1..], b[1..])
  }

  /** `a` comes before `b` because they agree on the first `k` elements and then either `a`
      ends while `b` goes on, or `a`'s next element is the smaller. */
  ghost predicate FirstDifferenceAt(a: seq<int>, b: seq<int>, k: nat)
  {
    && k <= |a| && k <= |b| && a[..k] == b[..k]
    && ((k == |a| && k < |b|) || (k < |a| && k < |b| && a[k] < b[k]))
  }

  /** Lexicographic order, stated without recursion. */
  ghost predicate LexBefore(a: seq<int>, b: seq<int>)
  {
    exists k: nat :: FirstDifferenceAt(a, b, k)
  }

  /** The library walk decides exactly the lexicographic order. */
  lemma {:induction false} LexLessMeaning(a: seq<int>, b: seq<int>)
    ensures LexLess(a, b) <==> LexBefore(a, b)
    decreases |a|
  {
    if |a| == 0 {
      if |b| > 0 {
        assert FirstDifferenceAt(a, b, 0);
      }
    } else if |b| == 0 {
    } else if a[0] < b[0] {
      assert FirstDifferenceAt(a, b, 0);
    } else if b[0] < a[0] {
    } else {
      LexLessMeaning(a[1..], b[1..]);
      if LexLess(a, b) {
        var k: nat :| FirstDifferenceAt(a[1..], b[1..], k);
        assert a[..k + 1] == [a[0]] + a[1..][..k];
        assert b[..k + 1] == [b[0]] + b[1..][..k];
        assert FirstDifferenceAt(a, b, k + 1);
      }
      if LexBefore(a, b) {
        var k: nat :| FirstDifferenceAt(a, b, k);
        assert k > 0;
        assert a[1..][..k - 1] == a[..k][1..];
        assert b[1..][..k - 1] == b[..k][1..];
        assert FirstDifferenceAt(a[1..], b[1..], k - 1);
      }
    }
  }

  /** Exactly one of `a < b`, `a == b`, `b < a` holds. */
  lemma {:induction false} LexLessTrichotomy(a: seq<int>, b: seq<int>)
    ensures LexLess(a, b) || a == b || LexLess(b, a)
    ensures !(LexLess(a, b) && LexLess(b, a))
    ensures LexLess(a, b) ==> a != b
    decreases |a|
  {
    if |a| == 0 || |b| == 0 {
    } else if a[0] != b[0] {
    } else {
      LexLessTrichotomy(a[1..], b[1..]);
      assert a == [a[0]] + a[1..] && b == [b[0]] + b[1..];
    }
  }

  lemma {:induction false} LexLessTransitive(a: seq<int>, b: seq<int>, c: seq<int>)
    requires LexLess(a, b) && LexLess(b, c)
    ensures LexLess(a, c)
    decreases |a|
  {
    if |a| > 0 && a[0] == b[0] && b[0] == c[0] {
      LexLessTransitive(a[1..], b[1..], c[1..]);
    }
  }

  /** A strict prefix orders first. */
  lemma {:induction false} StrictPrefixFirst(a: seq<int>, b: seq<int>)
    requires |a| < |b| && a == b[..|a|]
    ensures LexLess(a, b) && !LexLess(b, a)
    decreases |a|
  {
    if |a| > 0 {
      assert a[0] == b[0];
      assert a[1..] == b[1..][..|a| - 1];
      StrictPrefixFirst(a[1..], b[1..]);
    }
  }

  /** `operator<`. */
  function Less(lhs: Vec<int>, rhs: Vec<int>): (r: bool)
    requires Valid(lhs) && Valid(rhs)
    ensures r <==> LexBefore(Elements(lhs), Elements(rhs))
  {
    LexLessMeaning(Elements(lhs), Elements(rhs));
    LexLess(Elements(lhs), Elements(rhs))
  }

  /** `operator<=`, written as `!(rhs < lhs)`. */
  function LessEq(lhs: Vec<int>, rhs: Vec<int>): (r: bool)
    requires Valid(lhs) && Valid(rhs)
    ensures r <==> Less(lhs, rhs) || Equal(lhs, rhs)
  {
    LexLessTrichotomy(Elements(lhs), Elements(rhs));
    !Less(rhs, lhs)
  }

  /** `operator>`, written as `rhs < lhs`. */
  function Greater(lhs: Vec<int>, rhs: Vec<int>): (r: bool)
    requires Valid(lhs) && Valid(rhs)
    ensures r <==> LexBefore(Elements(rhs), Elements(lhs))
    ensures r <==> !LessEq(lhs, rhs)
  {
    Less(rhs, lhs)
  }

  /** `operator>=`, written as `!(lhs < rhs)`. */
  function GreaterEq(lhs: Vec<int>, rhs: Vec<int>): (r: bool)
    requires Valid(lhs) && Valid(rhs)
    ensures r <==> Greater(lhs, rhs) || Equal(lhs, rhs)
  {
    LexLessTrichotomy(Elements(lhs), Elements(rhs));
    !Less(lhs, rhs)
  }

  /** `<` on vectors is a strict total order. */
  lemma LessIsStrictOrder(a: Vec<int>, b: Vec<int>, c: Vec<int>)
    requires Valid(a) && Valid(b) && Valid(c)
    ensures !Less(a, a)
    ensures Less(a, b) && Less(b, c) ==> Less(a, c)
    ensures Less(a, b) || Equal(a, b) || Less(b, a)
  {
    LexLessTrichotomy(Elements(a), Elements(a));
    LexLessTrichotomy(Elements(a), Elements(b));
    if Less(a, b) && Less(b, c) {
      LexLessTransitive(Elements(a), Elements(b), Elements(c));
    }
  }
}

=== FILE: outcomes.dfy ===
/** Failure-carrying values shared by the vector model.
    The C++ code reports a bad index by throwing `std::out_of_range`; some of its paths
    instead have undefined behaviour (reading or writing outside the allocation, an
    inverted iterator range). Both become an `Error` here, so no operation needs a
    precondition that the source does not impose on its callers. */
module Outcomes {

  /** A possibly-null reference, or any optional value. */
  datatype Option<+T> = None | Some(value: T)

  /** `OutOfRange` is the exception the source throws; `UndefinedBehavior` marks a path on
      which the C++ program leaves its defined behaviour (the model stops there). */
  datatype Error = OutOfRange | UndefinedBehavior

  datatype Result<+R> = Ok(value: R) | Err(error: Error)
}

=== FILE: simple_vector.dfy ===
/** The growable array `SimpleVector<Type>`: a buffer owned through an `ArrayPtr`, a logical
    `size` and a physical `capacity`. The owned buffer is represented by its contents (a null
    `ArrayPtr` is the empty sequence); slots `[size, capacity)` are allocated but hold no
    element of the vector.

    Where a member of the C++ class departs from its evident intent, two functions appear
    here: one named `...AsWritten` that follows the code, and the corrected one that the rest
    of the model uses.

    Two element values recur as parameters: `blank`, the contents of every slot of a freshly
    allocated block (`new Type[n]`), and `dflt`, the value-initialised `Type{}` that `Resize`
    stores. They coincide for class types with a user-provided default constructor; for scalar
    types, and for class types without one (an aggregate such as `struct P { int x; }`), the
    fresh slots are default-initialised and hold indeterminate values, so the model keeps the
    two apart. */
module SimpleVector {
  import opened Outcomes
  import opened BufferMoves

  datatype Vec<T> = Vec(buffer: seq<T>, size: nat, capacity: nat)

  /** A vector together with a position in it: what `Insert` and `Erase` return. */
  datatype Placed<T> = Placed(vec: Vec<T>, pos: nat)

  /** The class invariant: the live elements fit in the capacity, and the owned allocation is
      at least `capacity` slots long. */
  predicate Valid<T>(v: Vec<T>)
  {
    v.size <= v.capacity <= |v.buffer|
  }

  /** The elements of the vector, in index order: the range `[begin(), end())`. */
  function Elements<T>(v: Vec<T>): seq<T>
    requires v.size <= |v.buffer|
  {
    v.buffer[..v.size]
  }

  function Max(a: nat, b: nat): (r: nat)
    ensures a <= r && b <= r && (r == a || r == b)
  {
    if a < b then b else a
  }

  /** The capacity `Insert` asks for when the buffer is full. */
  function Grow(capacity: nat): (r: nat)
    ensures capacity < r
    ensures capacity == 0 ==> r == 1
    ensures capacity > 0 ==> r == 2 * capacity
  {
    if capacity == 0 then 1 else capacity * 2
  }

  // ---------------------------------------------------------------------------
  // Construction
  // ---------------------------------------------------------------------------

  /** `SimpleVector()`: no elements and no allocation. */
  function Empty<T>(): (r: Vec<T>)
    ensures Valid(r) && r.size == 0 && r.capacity == 0 && |r.buffer| == 0
  {
    Vec([], 0, 0)
  }

  /** `SimpleVector(size, value)`: `size` freshly allocated slots, each then set to `value`.
      With `value == Type{}` this is also `explicit SimpleVector(size)`. */
  function Sized<T>(n: nat, value: T, blank: T): (r: Vec<T>)
    ensures Valid(r) && r.size == n && r.capacity == n && |r.buffer| == n
    ensures forall i :: 0 <= i < n ==> Elements(r)[i] == value
  {
    Vec(Filled(Allocate(n, blank), 0, n, value), n, n)
  }

  /** `SimpleVector(std::initializer_list<Type>)`: exactly the listed values. */
  function FromList<T>(xs: seq<T>, blank: T): (r: Vec<T>)
    ensures Valid(r) && r.capacity == |xs| && |r.buffer| == |xs|
    ensures Elements(r) == xs
  {
    var r := Vec(CopiedPrefix(xs, |xs|, Allocate(|xs|, blank)), |xs|, |xs|);
    assert Elements(r) == xs;
    r
  }

  /** `SimpleVector(ReserveProxyObj)`: no elements, `n` allocated slots. */
  function WithCapacity<T>(n: nat, blank: T): (r: Vec<T>)
    ensures Valid(r) && r.size == 0 && r.capacity == n && |r.buffer| == n
  {
    Reserve(Empty(), n, blank)
  }

  /** The copy constructor as written: it allocates `other.GetSize()` slots but records
      `other.GetCapacity()` as the capacity. */
  function CopyAsWritten<T>(other: Vec<T>, blank: T): (r: Vec<T>)
    requires Valid(other)
    ensures r.size == other.size && r.capacity == other.capacity && |r.buffer| == other.size
    ensures Elements(r) == Elements(other)
  {
    Vec(CopiedPrefix(other.buffer, other.size, Allocate(other.size, blank)), other.size, other.capacity)
  }

  /** The copy constructor with the capacity it actually allocates. */
  function Copy<T>(other: Vec<T>, blank: T): (r: Vec<T>)
    requires Valid(other)
    ensures Valid(r) && r.size == other.size && r.capacity == other.size
    ensures Elements(r) == Elements(other)
  {
    Vec(CopiedPrefix(other.buffer, other.size, Allocate(other.size, blank)), other.size, other.size)
  }

  /** Copy assignment: a copy of `rhs` swapped into the target, unless `same` says the target
      and `rhs` are one object (then nothing happens). */
  function CopyAssign<T>(target: Vec<T>, rhs: Vec<T>, same: bool, blank: T): (r: Vec<T>)
    requires Valid(target) && Valid(rhs)
    requires same ==> target == rhs
    ensures Valid(r) && r.size == rhs.size
    ensures Elements(r) == Elements(rhs)
  {
    if same then target else Copy(rhs, blank)
  }

  /** Move construction: the new vector takes the buffer, size and capacity; the source is left
      with a null buffer and size and capacity 0. Result is (new vector, source afterwards). */
  function MoveConstruct<T>(other: Vec<T>): (r: (Vec<T>, Vec<T>))
    requires Valid(other)
    ensures Valid(r.0) && Valid(r.1)
    ensures r.0.size == other.size && r.0.capacity == other.capacity && Elements(r.0) == Elements(other)
    ensures r.0.buffer == other.buffer
    ensures r.1.size == 0 && r.1.capacity == 0 && |r.1.buffer| == 0
  {
    (other, Empty())
  }

  /** Move assignment: the buffers are swapped, the target takes `rhs`'s size and capacity and
      `rhs` is left with size and capacity 0 (but holding the target's former buffer). Result is
      (target afterwards, rhs afterwards). */
  function MoveAssign<T>(target: Vec<T>, rhs: Vec<T>, same: bool): (r: (Vec<T>, Vec<T>))
    requires Valid(target) && Valid(rhs)
    requires same ==> target == rhs
    ensures Valid(r.0) && Valid(r.1)
    ensures r.0.size == rhs.size && r.0.capacity == rhs.capacity && Elements(r.0) == Elements(rhs)
    ensures r.0.buffer == rhs.buffer
    ensures !same ==> r.1.size == 0 && r.1.capacity == 0 && r.1.buffer == target.buffer
    ensures same ==> r == (target, rhs)
  {
    if same then (target, rhs) else (rhs, Vec(target.buffer, 0, 0))
  }

  /** `swap`: the two vectors exchange buffer, size and capacity. */
  function Swap<T>(a: Vec<T>, b: Vec<T>): (r: (Vec<T>, Vec<T>))
    requires Valid(a) && Valid(b)
    ensures Valid(r.0) && Valid(r.1)
    ensures r.0.size == b.size && r.0.capacity == b.capacity && Elements(r.0) == Elements(b)
    ensures r.1.size == a.size && r.1.capacity == a.capacity && Elements(r.1) == Elements(a)
    ensures r.0.buffer == b.buffer && r.1.buffer == a.buffer
  {
    (b, a)
  }

  // ---------------------------------------------------------------------------
  // Access
  // ---------------------------------------------------------------------------

  function IsEmpty<T>(v: Vec<T>): (r: bool)
    requires Valid(v)
    ensures r <==> Elements(v) == []
  {
    v.size == 0
  }

  /** Unchecked `operator[]`: the caller guarantees `i < size`. */
  function Index<T>(v: Vec<T>, i: nat): (r: T)
    requires Valid(v) && i < v.size
    ensures r == Elements(v)[i]
  {
    v.buffer[i]
  }

  /** Checked `At`: element `i`, or `out_of_range` when `i >= size`. */
  function At<T>(v: Vec<T>, i: nat): (r: Result<T>)
    requires Valid(v)
    ensures r.Ok? <==> i < v.size
    ensures r.Ok? ==> r.value == Elements(v)[i]
    ensures r.Err? ==> r.error == OutOfRange
  {
    if i < v.size then Ok(v.buffer[i]) else Err(OutOfRange)
  }

  /** Assignment through the reference the non-const `operator[]` returns (`v[i] = x`):
      element `i` becomes `x`; the caller guarantees `i < size`. */
  function SetIndex<T>(v: Vec<T>, i: nat, x: T): (r: Vec<T>)
    requires Valid(v) && i < v.size
    ensures Valid(r) && r.size == v.size && r.capacity == v.capacity
    ensures Elements(r) == Elements(v)[i := x]
  {
    var r := v.(buffer := v.buffer[i := x]);
    assert Elements(r) == Elements(v)[i := x];
    r
  }

  /** Assignment through the reference the non-const `At` returns (`v.At(i) = x`): element `i`
      becomes `x`, or `out_of_range` is thrown before anything changes when `i >= size`. */
  function SetAt<T>(v: Vec<T>, i: nat, x: T): (r: Result<Vec<T>>)
    requires Valid(v)
    ensures r.Ok? <==> i < v.size
    ensures r.Err? ==> r.error == OutOfRange
    ensures r.Ok? ==> Valid(r.value) && r.value.size == v.size && r.value.capacity == v.capacity
    ensures r.Ok? ==> Elements(r.value) == Elements(v)[i := x]
  {
    if i < v.size then Ok(SetIndex(v, i, x)) else Err(OutOfRange)
  }

  // ---------------------------------------------------------------------------
  // Capacity
  // ---------------------------------------------------------------------------

  /** `Clear`: no elements; the buffer and the capacity stay. */
  function Clear<T>(v: Vec<T>): (r: Vec<T>)
    requires Valid(v)
    ensures Valid(r) && Elements(r) == []
    ensures r.capacity == v.capacity && r.buffer == v.buffer
  {
    v.(size := 0)
  }

  /** `Reserve(n)`: when `n` exceeds the capacity, the elements move into a fresh block of
      exactly `n` slots, whose spare slots keep the fresh block's contents; otherwise nothing
      changes. */
  function Reserve<T>(v: Vec<T>, n: nat, blank: T): (r: Vec<T>)
    requires Valid(v)
    ensures Valid(r) && r.size == v.size && Elements(r) == Elements(v)
    ensures r.capacity == Max(v.capacity, n)
    ensures n > v.capacity ==> |r.buffer| == n && forall i :: v.size <= i < n ==> r.buffer[i] == blank
    ensures n <= v.capacity ==> r == v
  {
    if n > v.capacity then
      var r := Vec(CopiedPrefix(v.buffer, v.size, Allocate(n, blank)), v.size, n);
      assert Elements(r) == Elements(v);
      r
    else
      v
  }

  /** `Resize` as written. Growing past the capacity only reserves `max(2 * capacity, n)` and
      sets the size, so the new elements are the fresh block's contents rather than `Type{}`.
      Growing within the capacity fills `[size, size + n)`, whose end is `end() + new_size`
      rather than `begin() + new_size`; once that range passes the end of the allocation the
      program's behaviour is undefined. */
  function ResizeAsWritten<T>(v: Vec<T>, n: nat, blank: T, dflt: T): (r: Result<Vec<T>>)
    requires Valid(v)
    ensures r.Err? <==> v.size < n <= v.capacity && v.size + n > |v.buffer|
    ensures r.Err? ==> r.error == UndefinedBehavior
    ensures r.Ok? ==> Valid(r.value) && r.value.size == n
    ensures r.Ok? && n <= v.capacity ==> Elements(r.value) == Elements(Resize(v, n, blank, dflt))
    ensures r.Ok? && n > v.capacity ==> Elements(r.value) == Elements(v) + Allocate(n - v.size, blank)
    ensures r.Ok? ==> r.value.capacity == Resize(v, n, blank, dflt).capacity
  {
    if n > v.size then
      if n > v.capacity then
        var w := Reserve(v, Max(2 * v.capacity, n), blank).(size := n);
        assert Elements(w) == Elements(v) + Allocate(n - v.size, blank) by {
          forall i | 0 <= i < n
            ensures Elements(w)[i] == (Elements(v) + Allocate(n - v.size, blank))[i]
          {
            if i < v.size {
              assert Elements(w)[i] == Elements(Reserve(v, Max(2 * v.capacity, n), blank))[i];
            }
          }
        }
        Ok(w)
      else if v.size + n > |v.buffer| then
        Err(UndefinedBehavior)
      else
        var w := Vec(Filled(v.buffer, v.size, v.size + n, dflt), n, v.capacity);
        assert Elements(w) == Elements(Resize(v, n, blank, dflt));
        Ok(w)
    else
      Ok(v.(size := n))
  }

  /** `Resize(n)` as intended: truncate, or grow to `n` elements with the new ones set to
      `Type{}`, reallocating to `max(2 * capacity, n)` when `n` exceeds the capacity. The
      elements do not depend on the fresh block's contents. */
  function Resize<T>(v: Vec<T>, n: nat, blank: T, dflt: T): (r: Vec<T>)
    requires Valid(v)
    ensures Valid(r) && r.size == n
    ensures n <= v.size ==> Elements(r) == Elements(v)[..n]
    ensures n > v.size ==> Elements(r) == Elements(v) + Allocate(n - v.size, dflt)
    ensures r.capacity == (if n > v.capacity then Max(2 * v.capacity, n) else v.capacity)
  {
    if n > v.size then
      var g := if n > v.capacity then Reserve(v, Max(2 * v.capacity, n), blank) else v;
      var r := Vec(Filled(g.buffer, v.size, n, dflt), n, g.capacity);
      assert Elements(r) == Elements(v) + Allocate(n - v.size, dflt) by {
        assert Elements(g) == Elements(v);
        forall i | 0 <= i < n
          ensures Elements(r)[i] == (Elements(v) + Allocate(n - v.size, dflt))[i]
        {
          if i < v.size {
            assert Elements(r)[i] == g.buffer[i] == Elements(g)[i];
          }
        }
      }
      r
    else
      v.(size := n)
  }

  /** `PopBack`: drops the last element; the caller guarantees the vector is not empty. */
  function PopBack<T>(v: Vec<T>): (r: Vec<T>)
    requires Valid(v) && v.size > 0
    ensures Valid(r) && Elements(r) + [Elements(v)[v.size - 1]] == Elements(v)
    ensures r.capacity == v.capacity
  {
    var r := v.(size := v.size - 1);
    assert Elements(r) + [Elements(v)[v.size - 1]] == Elements(v);
    r
  }

  // ---------------------------------------------------------------------------
  // Insertion and removal
  // ---------------------------------------------------------------------------

  /** The vector `Insert` works on: grown to `Grow(capacity)` when full, unchanged otherwise. */
  function GrownForInsert<T>(v: Vec<T>, blank: T): (r: Vec<T>)
    requires Valid(v)
    ensures Valid(r) && r.size == v.size && Elements(r) == Elements(v) && r.size < r.capacity
    ensures r.capacity == (if v.size >= v.capacity then Grow(v.capacity) else v.capacity)
  {
    if v.size >= v.capacity then Reserve(v, Grow(v.capacity), blank) else v
  }

  /** `Insert(pos, Type&&)`: `x` placed at index `pos`, the elements from `pos` on shifted one
      slot right; a position outside `[begin(), end()]` throws `out_of_range`. */
  function Insert<T>(v: Vec<T>, pos: int, x: T, blank: T): (r: Result<Placed<T>>)
    requires Valid(v)
    ensures r.Ok? <==> 0 <= pos <= v.size
    ensures r.Err? ==> r.error == OutOfRange
    ensures r.Ok? ==> Valid(r.value.vec) && r.value.pos == pos && r.value.vec.size == v.size + 1
    ensures r.Ok? ==> Elements(r.value.vec) == Elements(v)[..pos] + [x] + Elements(v)[pos..]
    ensures r.Ok? ==> r.value.vec.capacity == (if v.size == v.capacity then Grow(v.capacity) else v.capacity)
  {
    if 0 <= pos <= v.size then
      var g := GrownForInsert(v, blank);
      var w := Vec(ShiftedRight(g.buffer, pos, g.size)[pos := x], g.size + 1, g.capacity);
      assert Elements(w) == Elements(v)[..pos] + [x] + Elements(v)[pos..] by {
        forall i | 0 <= i < v.size + 1
          ensures Elements(w)[i] == (Elements(v)[..pos] + [x] + Elements(v)[pos..])[i]
        {
          if i < pos {
            assert Elements(w)[i] == g.buffer[i] == Elements(g)[i];
          } else if i > pos {
            assert Elements(w)[i] == g.buffer[i - 1] == Elements(g)[i - 1];
          }
        }
      }
      Ok(Placed(w, pos))
    else
      Err(OutOfRange)
  }

  /** `Insert(pos, const Type&)` as written: it grows and shifts like `Insert`, and increments
      the size, but never stores `x`; the slot at `pos` keeps whatever it held. Its shift passes
      `cend()` where the other overload passes `end()`: `std::move_backward` then gets a
      `const Type*` and a `Type*`, so its template arguments cannot be deduced and the member
      does not compile once it is used. The model gives it the meaning both arguments name,
      the same position. */
  function InsertCopyAsWritten<T>(v: Vec<T>, pos: int, x: T, blank: T): (r: Result<Placed<T>>)
    requires Valid(v)
    ensures r.Ok? <==> 0 <= pos <= v.size
    ensures r.Err? ==> r.error == OutOfRange
    ensures r.Ok? ==> Valid(r.value.vec) && r.value.pos == pos && r.value.vec.size == v.size + 1
    ensures r.Ok? ==> r.value.vec.buffer[pos] == GrownForInsert(v, blank).buffer[pos]
    ensures r.Ok? ==> Elements(r.value.vec)[..pos] == Elements(v)[..pos]
    ensures r.Ok? ==> Elements(r.value.vec)[pos + 1..] == Elements(v)[pos..]
    ensures r.Ok? ==> r.value.vec.capacity == (if v.size == v.capacity then Grow(v.capacity) else v.capacity)
  {
    if 0 <= pos <= v.size then
      var g := GrownForInsert(v, blank);
      var w := Vec(ShiftedRight(g.buffer, pos, g.size), g.size + 1, g.capacity);
      assert Elements(w)[..pos] == Elements(v)[..pos] by {
        forall i | 0 <= i < pos
          ensures Elements(w)[i] == Elements(v)[i]
        {
          assert Elements(w)[i] == g.buffer[i] == Elements(g)[i];
        }
      }
      assert Elements(w)[pos + 1..] == Elements(v)[pos..] by {
        forall i | pos < i <= v.size
          ensures Elements(w)[i] == Elements(v)[i - 1]
        {
          assert Elements(w)[i] == g.buffer[i - 1] == Elements(g)[i - 1];
        }
      }
      Ok(Placed(w, pos))
    else
      Err(OutOfRange)
  }

  /** `PushBack(Type&&)`: `Insert` at `end()`, which never throws. */
  function PushBack<T>(v: Vec<T>, x: T, blank: T): (r: Vec<T>)
    requires Valid(v)
    ensures Valid(r) && r.size == v.size + 1 && Elements(r) == Elements(v) + [x]
    ensures r.capacity == (if v.size == v.capacity then Grow(v.capacity) else v.capacity)
  {
    var r := Insert(v, v.size, x, blank);
    assert Elements(v)[v.size..] == [];
    assert Elements(v)[..v.size] == Elements(v);
    r.value.vec
  }

  /** `PushBack(const Type&)` as written: `InsertCopyAsWritten` at `end()`. */
  function PushBackCopyAsWritten<T>(v: Vec<T>, x: T, blank: T): (r: Vec<T>)
    requires Valid(v)
    ensures Valid(r) && r.size == v.size + 1
    ensures Elements(r)[..v.size] == Elements(v)
    ensures Elements(r)[v.size] == GrownForInsert(v, blank).buffer[v.size]
  {
    InsertCopyAsWritten(v, v.size, x, blank).value.vec
  }

  /** `Erase` as written: its guard accepts `pos == end()`, and for that position it moves the
      inverted range `[end() + 1, end())`, which is undefined behaviour. */
  function EraseAsWritten<T>(v: Vec<T>, pos: int): (r: Result<Placed<T>>)
    requires Valid(v)
    ensures r.Ok? <==> 0 <= pos < v.size
    ensures r.Err? ==> (r.error == UndefinedBehavior <==> pos == v.size)
    ensures r.Ok? ==> r == Erase(v, pos)
  {
    if 0 <= pos <= v.size then
      if pos < v.size then
        Ok(Placed(Vec(ShiftedLeft(v.buffer, pos + 1, v.size), v.size - 1, v.capacity), pos))
      else
        Err(UndefinedBehavior)
    else
      Err(OutOfRange)
  }

  /** `Erase(pos)` as intended: the element at `pos` removed, the later ones shifted one slot
      left; a position outside `[begin(), end())` throws `out_of_range`. The returned position
      names the element that followed the erased one (or `end()`). */
  function Erase<T>(v: Vec<T>, pos: int): (r: Result<Placed<T>>)
    requires Valid(v)
    ensures r.Ok? <==> 0 <= pos < v.size
    ensures r.Err? ==> r.error == OutOfRange
    ensures r.Ok? ==> Valid(r.value.vec) && r.value.pos == pos && r.value.vec.size == v.size - 1
    ensures r.Ok? ==> Elements(r.value.vec) == Elements(v)[..pos] + Elements(v)[pos + 1..]
    ensures r.Ok? ==> r.value.vec.capacity == v.capacity
  {
    if 0 <= pos < v.size then
      var w := Vec(ShiftedLeft(v.buffer, pos + 1, v.size), v.size - 1, v.capacity);
      assert Elements(w) == Elements(v)[..pos] + Elements(v)[pos + 1..] by {
        forall i | 0 <= i < v.size - 1
          ensures Elements(w)[i] == (Elements(v)[..pos] + Elements(v)[pos + 1..])[i]
        {
          if i >= pos {
            assert Elements(w)[i] == v.buffer[i + 1];
          }
        }
      }
      Ok(Placed(w, pos))
    else
      Err(OutOfRange)
  }
}

=== FILE: vector_properties.dfy ===
/** Properties that relate several vector operations: round trips, idempotence, the cost of
    growth, and the inputs on which the code as written departs from its intent. */
module VectorProperties {
  import opened Outcomes
  import opened BufferMoves
  import opened SimpleVector

  // ---------------------------------------------------------------------------
  // Round trips and idempotence
  // ---------------------------------------------------------------------------

  /** Erasing at the position `Insert` returns restores the original elements. */
  lemma InsertEraseRoundTrip<T>(v: Vec<T>, pos: nat, x: T, blank: T)
    requires Valid(v) && pos <= v.size
    ensures Insert(v, pos, x, blank).Ok?
    ensures var p := Insert(v, pos, x, blank).value;
      Erase(p.vec, p.pos).Ok? && Elements(Erase(p.vec, p.pos).value.vec) == Elements(v)
  {
    var p := Insert(v, pos, x, blank).value;
    var e := Elements(p.vec);
    assert e[..pos] == Elements(v)[..pos];
    assert e[pos + 1..] == Elements(v)[pos..];
    assert Elements(v) == Elements(v)[..pos] + Elements(v)[pos..];
  }

  /** The element read back at an insertion position is the inserted value. */
  lemma InsertThenAt<T>(v: Vec<T>, pos: nat, x: T, blank: T)
    requires Valid(v) && pos <= v.size
    ensures Insert(v, pos, x, blank).Ok? && At(Insert(v, pos, x, blank).value.vec, pos) == Ok(x)
  {
    var e := Elements(Insert(v, pos, x, blank).value.vec);
    assert e[pos] == (Elements(v)[..pos] + [x] + Elements(v)[pos..])[pos];
  }

  /** `PushBack` is `Insert` at `end()`. */
  lemma PushBackIsInsertAtEnd<T>(v: Vec<T>, x: T, blank: T)
    requires Valid(v)
    ensures Insert(v, v.size, x, blank) == Ok(Placed(PushBack(v, x, blank), v.size))
  {
  }

  lemma ClearIdempotent<T>(v: Vec<T>)
    requires Valid(v)
    ensures Clear(Clear(v)) == Clear(v)
  {
  }

  /** Once `Reserve(n)` has run, asking for no more than the capacity changes nothing. */
  lemma ReserveIdempotent<T>(v: Vec<T>, n: nat, m: nat, blank: T)
    requires Valid(v) && m <= Reserve(v, n, blank).capacity
    ensures Reserve(Reserve(v, n, blank), m, blank) == Reserve(v, n, blank)
  {
  }

  lemma SwapInvolution<T>(a: Vec<T>, b: Vec<T>)
    requires Valid(a) && Valid(b)
    ensures var s := Swap(a, b); Swap(s.0, s.1) == (a, b)
  {
  }

  /** The allocation is exactly `capacity` slots long. */
  predicate Tight<T>(v: Vec<T>)
  {
    Valid(v) && v.capacity == |v.buffer|
  }

  /** Every mutating operation of the corrected model keeps the allocation exactly `capacity`
      slots long, and so do the as-written `Insert(pos, const Type&)` and, where it is defined,
      the as-written `Resize`. Only the source of a move assignment is left recording capacity 0
      for a non-empty buffer; the copy constructor as written breaks even `Valid` (see
      `CopyBreaksInvariant`). */
  lemma OperationsKeepTight<T>(v: Vec<T>, other: Vec<T>, n: nat, i: nat, pos: int, x: T, blank: T, dflt: T)
    requires Tight(v) && Tight(other)
    ensures Tight(Clear(v)) && Tight(Reserve(v, n, blank)) && Tight(Resize(v, n, blank, dflt))
    ensures ResizeAsWritten(v, n, blank, dflt).Ok? ==> Tight(ResizeAsWritten(v, n, blank, dflt).value)
    ensures Tight(PushBack(v, x, blank)) && Tight(PushBackCopyAsWritten(v, x, blank))
    ensures v.size > 0 ==> Tight(PopBack(v))
    ensures i < v.size ==> Tight(SetIndex(v, i, x))
    ensures SetAt(v, i, x).Ok? ==> Tight(SetAt(v, i, x).value)
    ensures Insert(v, pos, x, blank).Ok? ==> Tight(Insert(v, pos, x, blank).value.vec)
    ensures InsertCopyAsWritten(v, pos, x, blank).Ok? ==> Tight(InsertCopyAsWritten(v, pos, x, blank).value.vec)
    ensures Erase(v, pos).Ok? ==> Tight(Erase(v, pos).value.vec)
    ensures Tight(Copy(v, blank)) && Tight(CopyAssign(v, other, false, blank))
    ensures Tight(Swap(v, other).0) && Tight(Swap(v, other).1)
    ensures Tight(MoveConstruct(v).0) && Tight(MoveConstruct(v).1)
    ensures Tight(MoveAssign(v, other, false).0)
    ensures 0 < |v.buffer| ==> !Tight(MoveAssign(v, other, false).1)
  {
  }

  // ---------------------------------------------------------------------------
  // Growth by repeated PushBack
  // ---------------------------------------------------------------------------

  /** `PushBack` of every value of `xs`, in order. */
  function AppendAll<T>(v: Vec<T>, xs: seq<T>, blank: T): (r: Vec<T>)
    requires Valid(v)
    ensures Valid(r) && Elements(r) == Elements(v) + xs
    decreases |xs|
  {
    if |xs| == 0 then v
    else
      var r := AppendAll(PushBack(v, xs[0], blank), xs[1..], blank);
      assert Elements(v) + xs == Elements(v) + [xs[0]] + xs[1..];
      r
  }

  /** How many of those `PushBack` calls reallocate the buffer. */
  function Reallocations<T>(v: Vec<T>, xs: seq<T>, blank: T): nat
    requires Valid(v)
    decreases |xs|
  {
    if |xs| == 0 then 0
    else (if v.size == v.capacity then 1 else 0) + Reallocations(PushBack(v, xs[0], blank), xs[1..], blank)
  }

  function Pow2(k: nat): nat
  {
    if k == 0 then 1 else 2 * Pow2(k - 1)
  }

  /** The shape appending keeps: after `c` reallocations the capacity is `2^(c-1)` and the
      vector is more than half full. */
  ghost predicate Doubled<T>(v: Vec<T>, c: nat)
  {
    || (c == 0 && v.size == 0 && v.capacity == 0)
    || (c >= 1 && v.capacity == Pow2(c - 1) && 0 < v.size <= v.capacity < 2 * v.size)
  }

  lemma {:induction false} AppendKeepsDoubled<T>(v: Vec<T>, c: nat, xs: seq<T>, blank: T)
    requires Valid(v) && Doubled(v, c)
    ensures Doubled(AppendAll(v, xs, blank), c + Reallocations(v, xs, blank))
    decreases |xs|
  {
    if |xs| > 0 {
      var w := PushBack(v, xs[0], blank);
      var step := if v.size == v.capacity then 1 else 0;
      assert Doubled(w, c + step);
      AppendKeepsDoubled(w, c + step, xs[1..], blank);
    }
  }

  /** Appending `n > 0` values to a vector with no elements and no capacity (such as
      `Empty()`) leaves a capacity in `[n, 2n)` that is `2^(r-1)` for the number `r` of
      reallocations, so `r` is logarithmic in `n`. */
  lemma AppendGrowth<T>(v: Vec<T>, xs: seq<T>, blank: T)
    requires Valid(v) && v.size == 0 && v.capacity == 0 && |xs| > 0
    ensures |xs| <= AppendAll(v, xs, blank).capacity < 2 * |xs|
    ensures Reallocations(v, xs, blank) >= 1
    ensures AppendAll(v, xs, blank).capacity == Pow2(Reallocations(v, xs, blank) - 1)
  {
    var r := AppendAll(v, xs, blank);
    AppendKeepsDoubled(v, 0, xs, blank);
    assert |Elements(r)| == |Elements(v) + xs| == |xs|;
  }

  // ---------------------------------------------------------------------------
  // The code as written
  // ---------------------------------------------------------------------------

  /** `Insert(pos, const Type&)` never stores the value: pushing onto a full vector exposes the
      freshly allocated slot instead. */
  lemma InsertCopyDropsValue<T>(v: Vec<T>, x: T, blank: T)
    requires Valid(v) && v.size == v.capacity && x != blank
    ensures Elements(PushBackCopyAsWritten(v, x, blank))[v.size] == blank != x
    ensures Elements(PushBack(v, x, blank))[v.size] == x
  {
    assert Elements(PushBack(v, x, blank))[v.size] == (Elements(v) + [x])[v.size];
  }

  /** A concrete case where the fresh slot holds `0`: the inserted `5` is lost. */
  lemma InsertCopyDropsValueExample()
    ensures Elements(InsertCopyAsWritten(Empty(), 0, 5, 0).value.vec) == [0]
    ensures Elements(Insert(Empty(), 0, 5, 0).value.vec) == [5]
  {
    InsertCopyDropsValue(Empty(), 5, 0);
  }

  /** `Erase` as written lets `end()` through its guard, where the intended `Erase` throws. */
  lemma EraseAcceptsEnd<T>(v: Vec<T>)
    requires Valid(v)
    ensures EraseAsWritten(v, v.size) == Err(UndefinedBehavior)
    ensures Erase(v, v.size) == Err(OutOfRange)
  {
  }

  /** Whenever the fill range `[size, size + n)` passes the allocation, `Resize` as written has
      undefined behaviour, while the intended `Resize` appends `n - size` copies of `Type{}`. */
  lemma ResizeOverruns<T>(v: Vec<T>, n: nat, blank: T, dflt: T)
    requires Valid(v) && v.size < n <= v.capacity && v.size + n > |v.buffer|
    ensures ResizeAsWritten(v, n, blank, dflt) == Err(UndefinedBehavior)
    ensures Elements(Resize(v, n, blank, dflt)) == Elements(v) + Allocate(n - v.size, dflt)
  {
  }

  /** A concrete case: one element, capacity two, resized to two. */
  lemma ResizeOverrunExample()
    ensures var v := Reserve(PushBack(Empty(), 7, 0), 2, 0);
      v.size == 1 && v.capacity == 2 && |v.buffer| == 2
      && ResizeAsWritten(v, 2, 0, 0) == Err(UndefinedBehavior)
      && Elements(Resize(v, 2, 0, 0)) == [7, 0]
  {
    var v := Reserve(PushBack(Empty(), 7, 0), 2, 0);
    ResizeOverruns(v, 2, 0, 0);
    assert Elements(v) == [7];
  }

  /** Growing past the capacity, `Resize` as written exposes the fresh block's slots as the new
      elements, while the intended `Resize` sets them to `Type{}`: the two differ whenever a
      fresh slot does not hold `Type{}` (an indeterminate scalar, say). */
  lemma ResizeSkipsDefaultFill<T>(v: Vec<T>, n: nat, blank: T, dflt: T)
    requires Valid(v) && n > v.capacity
    ensures ResizeAsWritten(v, n, blank, dflt).Ok?
    ensures forall i :: v.size <= i < n ==> Elements(ResizeAsWritten(v, n, blank, dflt).value)[i] == blank
    ensures forall i :: v.size <= i < n ==> Elements(Resize(v, n, blank, dflt))[i] == dflt
    ensures blank != dflt ==> Elements(ResizeAsWritten(v, n, blank, dflt).value) != Elements(Resize(v, n, blank, dflt))
  {
    var w := ResizeAsWritten(v, n, blank, dflt).value;
    var e := Elements(v) + Allocate(n - v.size, blank);
    var d := Elements(v) + Allocate(n - v.size, dflt);
    assert forall i :: v.size <= i < n ==> e[i] == blank && d[i] == dflt;
    if blank != dflt {
      assert e[v.size] != d[v.size];
    }
  }

  /** A concrete case: an empty vector resized to one element whose fresh slot holds `9`. */
  lemma ResizeSkipsDefaultFillExample()
    ensures ResizeAsWritten(Empty(), 1, 9, 0) == Ok(Vec([9], 1, 1))
    ensures Resize(Empty(), 1, 9, 0) == Vec([0], 1, 1)
  {
    var w := ResizeAsWritten(Empty(), 1, 9, 0).value;
    ResizeSkipsDefaultFill(Empty(), 1, 9, 0);
    assert |w.buffer| == 1 && w.buffer[0] == Elements(w)[0] == 9;
    assert w.buffer == [9];
  }

  /** The copy constructor as written records more capacity than it allocates whenever the
      source has spare capacity, which breaks the class invariant. */
  lemma CopyBreaksInvariant<T>(other: Vec<T>, blank: T)
    requires Valid(other) && other.size < other.capacity
    ensures !Valid(CopyAsWritten(other, blank))
    ensures Valid(Copy(other, blank))
  {
  }

  lemma CopyBreaksInvariantExample()
    ensures !Valid(CopyAsWritten(WithCapacity(1, 0), 0))
  {
    CopyBreaksInvariant(WithCapacity(1, 0), 0);
  }
}
